=== FILE: README.md ===
# Curve builder and shape variants

A Dafny model of the geometry core of a small C++ program that reads a list
of parametric space curves and evaluates them. The core has two parts:

- **Shape variants** (`src/geo/geometry.cpp`): the `vec3` value type and six
  immutable curves — Circle, Ellipse, Helix, Point, Line and Line Segment —
  each with a throwing constructor check and closed-form `GetPoint(t)` and
  `GetDerivative(t)` evaluators.
- **Builder** (`src/geo/geometry_builder.cpp`): `CreateCircle`,
  `CreateEllipse` and `CreateHelix` take raw, possibly negative or
  near-zero radius and step values, take the absolute value of negative
  radii, downgrade to a Point, Line, Line Segment or Circle when a parameter
  is below the configured epsilon, and log a warning for every correction.

Files:

- `results.dfy` — `Result` (a value or the message of a thrown
  `invalid_argument`) and `Check` (a check that passes or throws).
- `vectors.dfy` — `Abs` (`std::abs`), `Vec3`, componentwise
  `Add`/`Sub`/`Scale`/`Div`, `LengthSq`, `Length`, `Normalized`, and
  `MathLib` with `SqrtLaw`, the square-root law assumed of it.
- `geometry.dfy` — `Config` (the tolerance), the `Shape` datatype (label,
  id, origin and a per-variant `Curve` payload), `CheckRadius`, one
  `Result`-returning function per constructor, `TypeName`, `GetPoint`,
  `GetDerivative`, and `WellFormed`, the invariant every successful
  constructor establishes.
- `geometry_builder.dfy` — the three builder operations, each returning the
  shape (or the exception that escaped) together with the warnings it
  logged, in order.

Modelling choices:

- Reals are Dafny `real`. `std::sqrt`, `sin` and `cos` are the fields of a
  `MathLib` value passed in by the caller and are otherwise uninterpreted.
  The only law assumed of them is `SqrtLaw`: for `s >= 0`, `sqrt(s) >= 0`
  and `sqrt(s) * sqrt(s) == s`. Every result that needs it names it as a
  hypothesis.
- The builder's `cfg` field is set once and only read, so each builder
  operation takes the `Config` as a parameter. `LogWarning("%s: …", label)`
  becomes a returned string `label + ": " + message`.
- The C++ field `label` is called `name` here, because `label` is a Dafny
  keyword.

Quirks of the source that the model keeps:

- `CreateEllipse` takes the absolute value of **both** axes, with a single
  warning, when **either** axis is negative.
- The helix step-near-zero branch warns "Converting to Ellipse" but builds a
  Circle.
- A Line Segment made from an ellipse is stored with `origin - d` as its
  origin, not the ellipse centre.
- The Line and Line Segment constructors normalise their direction with the
  default tolerance `1e-9`, not with `cfg.epsilon`. With a configured
  epsilon below `1e-9`, a direction or chord that is accepted but shorter
  than `1e-9` is stored as the zero vector. A segment is then constant at
  its start point and has a zero derivative (`LineSegmentDegenerate`). The
  constructors' contracts state the zero direction, `WellFormed` permits it,
  and the endpoint lemmas assume a chord of at least `1e-9`.
- `CreateHelix` can throw; see Findings.

## Model

| member | source | states |
|---|---|---|
| Vectors.Abs | src/geo/geometry.cpp:60 | the result is non-negative, equal to `a` or `-a`, and `-a` for a negative `a` |
| Vectors.Add | src/geo/geometry.cpp:14-16 | the zero vector is a left and right identity of `+` |
| Vectors.Sub | src/geo/geometry.cpp:17-19 | `(a - b) + b == a`, and `a - b` is zero exactly when `a == b` |
| Vectors.AddSubInverse | src/geo/geometry.cpp:14-19 | `(a + d) - d == a` |
| Vectors.Scale | src/geo/geometry.cpp:20-22 | scaling by `k` multiplies the squared length by `k * k` |
| Vectors.Div | src/geo/geometry.cpp:23-25 | dividing by a non-zero `k` is undone by scaling by `k` |
| Vectors.LengthSq | src/geo/geometry.cpp:27-29 | the squared length is non-negative and zero only for the zero vector |
| Vectors.Length | src/geo/geometry.cpp:27-29 | under `SqrtLaw` the length is the non-negative root of the squared length |
| Vectors.Normalized | src/geo/geometry.cpp:30-35 | zero vector when the length is below epsilon; otherwise a vector of length 1 that, scaled by the length, gives back the input |
| Vectors.SqrtOfSquare | src/geo/geometry.cpp:28 | the root of `a * a` is `a` for `a >= 0` |
| Vectors.LengthOfSquare | src/geo/geometry.cpp:27-29 | a vector with squared length `a * a` has length `a` |
| Vectors.LengthBelow | src/geo/geometry.cpp:31 | comparing a length with a positive epsilon is the same as comparing squared length with epsilon squared |
| Geometry.CheckRadius | src/geo/geometry.cpp:56-63 | passes exactly when `0 <= radius` and `epsilon <= radius`; a negative radius throws "Radius < 0", a non-negative one below epsilon throws the near-zero message (the same text the builder keeps as `RadiusNearZero`) |
| Geometry.NewCircle | src/geo/geometry.cpp:81-84 | succeeds exactly when the radius passes `CheckRadius`; a failing radius throws `CheckRadius`'s own message; the stored shape is well formed |
| Geometry.NewEllipse | src/geo/geometry.cpp:106-112 | succeeds exactly when both radii pass `CheckRadius`; a failing radiusX throws its `CheckRadius` message, and only with a passing radiusX does a failing radiusY throw its own; the stored shape is well formed |
| Geometry.NewHelix | src/geo/geometry.cpp:130-138 | succeeds exactly when the radius passes `CheckRadius` and `epsilon <= abs(step)`, so a negative step is accepted; a failing radius throws `CheckRadius`'s message; with a passing radius, a near-zero step throws "Step < epsilon" |
| Geometry.NewLine | src/geo/geometry.cpp:174-181 | succeeds exactly when the direction length is at least epsilon; under `SqrtLaw` and a positive epsilon that is the same as `epsilon * epsilon <= LengthSq(direction)`; the stored direction is unit and parallel to the input when the length is at least `1e-9`, and the zero vector when an accepted length is below `1e-9` |
| Geometry.NewLineSegment | src/geo/geometry.cpp:199-210 | succeeds exactly when `abs(end - start) >= epsilon`, which under `SqrtLaw` and a positive epsilon is the squared comparison; origin is `start`, length is `abs(end - start)`, the shape is well formed, and the direction is the zero vector when an accepted chord is below `1e-9` |
| Geometry.TypeName | src/geo/geometry.cpp:90-214 | the name is one of "Circle", "Ellipse", "Helix", "Point", "Line", "Line Segment", and each name is reported exactly for its own variant |
| Geometry.TypeNameIdentifies | src/geo/geometry.cpp:90-214 | two shapes report the same type name exactly when they are of the same variant |
| Geometry.Clamp | src/geo/geometry.cpp:217 | the result lies in `[lo, hi]`, is `t` inside it and the nearer bound outside |
| Geometry.GetPoint | src/geo/geometry.cpp:94-219 | a Point stays at its origin; Circle and Ellipse points keep the origin's z; a Helix point has `z = origin.z + step * t`; a Line passes through its origin at `t = 0`; a segment is at its origin for `t <= 0` |
| Geometry.GetDerivative | src/geo/geometry.cpp:98-223 | zero for a Point; zero z for Circle and Ellipse; z equals the step for a Helix; the constant direction for a Line; a segment's tangent has the length of direction times length |
| Geometry.LineSegmentDegenerate | src/geo/geometry.cpp:205-223 | when an accepted chord is below `1e-9`, a built segment is at `start` and has a zero derivative for every `t` |
| Geometry.ZeroDirectionSegment | src/geo/geometry.cpp:216-223 | any segment with a zero direction is at its origin and has a zero derivative for every `t` |
| Geometry.LineSegmentEnds | src/geo/geometry.cpp:199-223 | when the chord is at least `1e-9`, a built segment is at `start` for `t <= 0` and at `end` for `t >= 1`, and its derivative is `end - start` for every `t` |
| Geometry.LineSegmentMidpoint | src/geo/geometry.cpp:216-219 | when the chord is at least `1e-9`, a built segment's point at `t = 0.5` is halfway along the chord |
| Geometry.SegmentDistanceMonotone | src/geo/geometry.cpp:216-219 | the squared distance from the segment's start does not decrease with `t` |
| GeometryBuilder.Warning | src/geo/geometry_builder.cpp:9 | each warning starts with the shape's label, followed by `": "` and the message |
| GeometryBuilder.CreateCircle | src/geo/geometry_builder.cpp:5-24 | never throws; Point at the origin when `abs(radius) < epsilon`, else Circle of radius `abs(radius)`; one warning per correction, "radius < 0" first and "… Converting to Point" last on the Point path; a valid radius passes through unchanged with no warning |
| GeometryBuilder.CreateEllipse | src/geo/geometry_builder.cpp:26-62 | both axes near zero gives a Point, neither gives `Ellipse(abs(rx), abs(ry))`, exactly one gives a Line Segment; one "radius < 0" warning for any negative axis plus one "… Converting to Point" or "… Converting to Line Segment" warning for a downgrade; valid radii pass through with no warning |
| GeometryBuilder.HalfAxis | src/geo/geometry_builder.cpp:47-50 | the near-zero axis of the collapsed ellipse is exactly 0 and the surviving axis is the absolute value of its radius |
| GeometryBuilder.EllipseToSegment | src/geo/geometry_builder.cpp:44-55 | with exactly one near-zero axis the result is a segment from `origin - d` to `origin + d`, stored at `origin - d`, of length twice the surviving radius and at least epsilon; when that length is at least `1e-9`, its points at 0 and 1 are the two ends and its point at 0.5 is the centre |
| GeometryBuilder.SegmentAcrossCentre | src/geo/geometry_builder.cpp:50-54 | the segment across a centre along one axis is accepted exactly when `2 * abs(d)` is at least epsilon, and runs from `centre - d` through `centre` to `centre + d` |
| GeometryBuilder.AxisChordLength | src/geo/geometry_builder.cpp:50-54 | the chord from `centre - d` to `centre + d` along one axis has length `2 * abs(d)` |
| GeometryBuilder.BuildHelix | src/geo/geometry_builder.cpp:64-101 | label, id and origin always pass through, and under `SqrtLaw` any shape built is well formed |
| GeometryBuilder.CreateHelix | src/geo/geometry_builder.cpp:64-101 | both near zero gives a Point, only the step gives `Circle(abs(radius))` with the "Converting to Ellipse" warning, neither gives `Helix(abs(radius), step)` with the step's sign kept; per branch the warning count and texts, ending the near-zero radius message `RadiusNearZero` then "… Converting to Point" or "Converting to Line" on a near-zero radius; valid inputs pass through with no warning |
| GeometryBuilder.HelixAxisLine | src/geo/geometry_builder.cpp:82-87 | on the Line path the Line constructor accepts the z-axis direction exactly when its length is at least epsilon, and stores `(0,0,1)` or `(0,0,-1)` by the step's sign |
| GeometryBuilder.CreateHelixLine | src/geo/geometry_builder.cpp:75-88 | near-zero radius with a step that is not near zero gives a Line through the origin along `+z` if `step > 0`, else `-z`, exactly when epsilon is at most 1 |
| GeometryBuilder.HelixLineRejectedForWideEpsilon | src/geo/geometry_builder.cpp:86-87 | with epsilon 5, radius 0 and step 10 the Line constructor throws "Direction length < epsilon" |
| GeometryBuilder.CreateHelixFixed | src/geo/geometry_builder.cpp:86-87 | same warnings as `CreateHelix`, and the same result everywhere except the Line path |
| GeometryBuilder.CreateHelixFixedNeverThrows | src/geo/geometry_builder.cpp:64-101 | the corrected helix builder never throws, yields a well-formed shape, and agrees with `CreateHelix` wherever that does not throw |
| GeometryBuilder.BuilderNeverThrows | src/geo/geometry_builder.h:7-11 | for all inputs `CreateCircle` and `CreateEllipse` never throw and yield well-formed shapes; `CreateHelix` throws exactly when the radius is near zero, the step is not, and epsilon exceeds 1; `CreateHelixFixed` never throws |

## Findings

| source | as written | input that shows it | evidently intended | confidence | as-written member | corrected member |
|---|---|---|---|---|---|---|
| src/geo/geometry_builder.cpp:86-87 | the Line path passes the unit vector `(0,0,±1)` to the Line constructor, which compares its length 1 with `cfg.epsilon` (src/geo/geometry.cpp:176-178); `CreateHelixLine` states that this path succeeds exactly when epsilon is at most 1 | `epsilon = 5`, `radius = 0`, `step = 10`: `invalid_argument` escapes from `CreateHelix` | the builder corrects every parameter so that no constructor throws (src/geo/geometry_builder.h:7-8) | medium, not executed | GeometryBuilder.HelixLineRejectedForWideEpsilon | GeometryBuilder.CreateHelixFixed |

`CreateHelixFixed` scales the axis direction to `max(1, epsilon)`. After
normalisation the stored Line is the same as the Line that `CreateHelix`
stores.

## Left out

- The loader (`src/geo/geometry_loader.cpp`) is not part of this model. It does file I/O and stream parsing, and only its calls into the builder matter here.
- The console report and circle sorting in `src/main.cpp` are not part of this model. They are I/O and presentation.
- `src/logging/logging.cpp` is not part of this model. Warnings are returned as a sequence of messages instead of being printed. The function name and line number that the logging macro adds are not modelled.
- IEEE double rounding, NaN and infinities are not modelled; all arithmetic is exact over the reals. Non-finite input is unhandled in the source too.
- The values of `sqrt`, `sin` and `cos` are not modelled. No trigonometric fact is used, so constant tangent magnitude and points such as `Circle.GetPoint(0) = origin + (r,0,0)` are not proved.
- Vectors.Normalized: requires a positive epsilon. With epsilon `<= 0` and the zero vector the source computes `0/0`, which reals cannot express. Every call in the source uses the default `1e-9`.
- Vectors.Div: requires a non-zero divisor. The source would produce infinities or NaN.
- The `vec3` union layout, virtual dispatch and `unique_ptr`/`shared_ptr` ownership are replaced by plain datatypes.
- The accessors `GetLabel`, `GetOrigin`, `GetId` and `GetRadius` are the datatype's fields. The default `Geometry()` constructor is unused and left out.

=== FILE: geometry.dfy ===
/**
 * The six immutable parametric curves of the geometry core (Circle,
 * Ellipse, Helix, Point, Line, Line Segment) as one datatype, their
 * throwing constructors as `Result`-returning functions, and their
 * closed-form point and derivative evaluators.
 */
module Geometry {
  import opened Results
  import opened Vectors

  /** The unsigned 64-bit shape identifier. */
  newtype u64 = x: int | 0 <= x < 0x1_0000_0000_0000_0000

  /** The default tolerance of `Normalized` and of `GeometryConfig`. */
  const DefaultEpsilon: real := 0.000000001

  /** `GeometryConfig`: the tolerance every validity check compares against. */
  datatype Config = Config(epsilon: real)

  /** The per-variant payload of a shape. */
  datatype Curve =
    | Circle(radius: real)
    | Ellipse(radiusX: real, radiusY: real)
    | Helix(radius: real, step: real)
    | Point
    | Line(direction: Vec3)
    | LineSegment(direction: Vec3, length: real)

  /** A shape: name, identifier and origin common to all variants, plus the payload. */
  datatype Shape = Shape(name: string, id: u64, origin: Vec3, curve: Curve)

  /**
   * What every constructor guarantees about the stored fields. A Line
   * direction is normalised with `DefaultEpsilon`, not with the configured
   * tolerance, so it is the zero vector when the raw direction was accepted
   * but shorter than `DefaultEpsilon`; the same holds of a Line Segment.
   */
  predicate WellFormed(cfg: Config, s: Shape) {
    match s.curve
    case Circle(r) => 0.0 <= r && cfg.epsilon <= r
    case Ellipse(rx, ry) => 0.0 <= rx && cfg.epsilon <= rx && 0.0 <= ry && cfg.epsilon <= ry
    case Helix(r, step) => 0.0 <= r && cfg.epsilon <= r && cfg.epsilon <= Abs(step)
    case Point => true
    case Line(d) => LengthSq(d) == 1.0 || (d == Zero && cfg.epsilon < DefaultEpsilon)
    case LineSegment(d, len) =>
      0.0 <= len && cfg.epsilon <= len && (LengthSq(d) == 1.0 || (d == Zero && len < DefaultEpsilon))
  }

  /** `Geometry::CheckRadius`: a radius must be non-negative and at least epsilon. */
  function CheckRadius(radius: real, cfg: Config): (r: Check)
    ensures r.Pass? <==> 0.0 <= radius && cfg.epsilon <= radius
    ensures radius < 0.0 ==> r == Fail("Radius < 0")
    ensures 0.0 <= radius < cfg.epsilon ==> r == Fail("|radius| < epsilon")
  {
    if radius < 0.0 then Fail("Radius < 0")
    else if Abs(radius) < cfg.epsilon then Fail("|radius| < epsilon")
    else Pass
  }

  /** The `Circle` constructor. */
  function NewCircle(name: string, id: u64, origin: Vec3, radius: real, cfg: Config): (r: Result<Shape>)
    ensures r.Ok? <==> 0.0 <= radius && cfg.epsilon <= radius
    ensures r.Ok? ==> r.value == Shape(name, id, origin, Circle(radius)) && WellFormed(cfg, r.value)
    ensures CheckRadius(radius, cfg).Fail? ==> r == Err(CheckRadius(radius, cfg).error)
  {
    match CheckRadius(radius, cfg)
    case Fail(e) => Err(e)
    case Pass => Ok(Shape(name, id, origin, Circle(radius)))
  }

  /** The `Ellipse` constructor: checks radiusX, then radiusY. */
  function NewEllipse(name: string, id: u64, origin: Vec3, radiusX: real, radiusY: real, cfg: Config): (r: Result<Shape>)
    ensures r.Ok? <==> 0.0 <= radiusX && cfg.epsilon <= radiusX && 0.0 <= radiusY && cfg.epsilon <= radiusY
    ensures r.Ok? ==> r.value == Shape(name, id, origin, Ellipse(radiusX, radiusY)) && WellFormed(cfg, r.value)
    ensures radiusX < 0.0 ==> r == Err("Radius < 0")
    ensures CheckRadius(radiusX, cfg).Fail? ==> r == Err(CheckRadius(radiusX, cfg).error)
    ensures CheckRadius(radiusX, cfg).Pass? && CheckRadius(radiusY, cfg).Fail? ==> r == Err(CheckRadius(radiusY, cfg).error)
  {
    match CheckRadius(radiusX, cfg)
    case Fail(e) => Err(e)
    case Pass =>
      match CheckRadius(radiusY, cfg)
      case Fail(e) => Err(e)
      case Pass => Ok(Shape(name, id, origin, Ellipse(radiusX, radiusY)))
  }

  /** The `Helix` constructor: the radius must pass `CheckRadius`; the step may be negative but not near zero. */
  function NewHelix(name: string, id: u64, origin: Vec3, radius: real, step: real, cfg: Config): (r: Result<Shape>)
    ensures r.Ok? <==> 0.0 <= radius && cfg.epsilon <= radius && cfg.epsilon <= Abs(step)
    ensures r.Ok? ==> r.value == Shape(name, id, origin, Helix(radius, step)) && WellFormed(cfg, r.value)
    ensures CheckRadius(radius, cfg).Fail? ==> r == Err(CheckRadius(radius, cfg).error)
    ensures CheckRadius(radius, cfg).Pass? && Abs(step) < cfg.epsilon ==> r == Err("Step < epsilon")
  {
    match CheckRadius(radius, cfg)
    case Fail(e) => Err(e)
    case Pass =>
      if Abs(step) < cfg.epsilon then Err("Step < epsilon")
      else Ok(Shape(name, id, origin, Helix(radius, step)))
  }

  /**
   * The `Line` constructor: rejects a direction shorter than epsilon and
   * stores the direction normalised with the default tolerance.
   */
  function NewLine(name: string, id: u64, origin: Vec3, direction: Vec3, cfg: Config, m: MathLib): (r: Result<Shape>)
    ensures r.Ok? <==> cfg.epsilon <= Length(m, direction)
    ensures !r.Ok? ==> r.error == "Direction length < epsilon"
    ensures r.Ok? ==> r.value.name == name && r.value.id == id && r.value.origin == origin && r.value.curve.Line?
    ensures SqrtLaw(m) && r.Ok? ==> WellFormed(cfg, r.value)
    ensures SqrtLaw(m) && r.Ok? && DefaultEpsilon <= Length(m, direction) ==>
      LengthSq(r.value.curve.direction) == 1.0 && Scale(r.value.curve.direction, Length(m, direction)) == direction
    ensures r.Ok? && Length(m, direction) < DefaultEpsilon ==> r.value.curve.direction == Zero
    ensures SqrtLaw(m) && 0.0 < cfg.epsilon ==> (r.Ok? <==> cfg.epsilon * cfg.epsilon <= LengthSq(direction))
  {
    LengthBelow(m, direction, cfg.epsilon);
    if Length(m, direction) < cfg.epsilon then Err("Direction length < epsilon")
    else Ok(Shape(name, id, origin, Line(Normalized(m, direction, DefaultEpsilon))))
  }

  /**
   * The `LineSegment` constructor: the origin is `start`, the length is the
   * distance to `end`, which must be at least epsilon, and the direction is
   * normalised with the default tolerance.
   */
  function NewLineSegment(name: string, id: u64, start: Vec3, end: Vec3, cfg: Config, m: MathLib): (r: Result<Shape>)
    ensures r.Ok? <==> cfg.epsilon <= Length(m, Sub(end, start))
    ensures !r.Ok? ==> r.error == "Length < epsilon"
    ensures r.Ok? ==> r.value.name == name && r.value.id == id && r.value.origin == start
    ensures r.Ok? ==> r.value.curve.LineSegment? && r.value.curve.length == Length(m, Sub(end, start))
    ensures SqrtLaw(m) && r.Ok? ==> WellFormed(cfg, r.value)
    ensures r.Ok? && Length(m, Sub(end, start)) < DefaultEpsilon ==> r.value.curve.direction == Zero
    ensures SqrtLaw(m) && 0.0 < cfg.epsilon ==> (r.Ok? <==> cfg.epsilon * cfg.epsilon <= LengthSq(Sub(end, start)))
  {
    LengthBelow(m, Sub(end, start), cfg.epsilon);
    var diff := Sub(end, start);
    var length := Length(m, diff);
    if length < cfg.epsilon then Err("Length < epsilon")
    else Ok(Shape(name, id, start, LineSegment(Normalized(m, diff, DefaultEpsilon), length)))
  }

  /** `GetTypeName`: a distinct name per variant. */
  function TypeName(s: Shape): (typeName: string)
    ensures typeName in {"Circle", "Ellipse", "Helix", "Point", "Line", "Line Segment"}
    ensures typeName == "Circle" <==> s.curve.Circle?
    ensures typeName == "Ellipse" <==> s.curve.Ellipse?
    ensures typeName == "Helix" <==> s.curve.Helix?
    ensures typeName == "Point" <==> s.curve.Point?
    ensures typeName == "Line" <==> s.curve.Line?
    ensures typeName == "Line Segment" <==> s.curve.LineSegment?
  {
    match s.curve
    case Circle(_) => "Circle"
    case Ellipse(_, _) => "Ellipse"
    case Helix(_, _) => "Helix"
    case Point => "Point"
    case Line(_) => "Line"
    case LineSegment(_, _) => "Line Segment"
  }

  /** Two payloads are of the same variant. */
  predicate SameVariant(a: Curve, b: Curve) {
    || (a.Circle? && b.Circle?)
    || (a.Ellipse? && b.Ellipse?)
    || (a.Helix? && b.Helix?)
    || (a.Point? && b.Point?)
    || (a.Line? && b.Line?)
    || (a.LineSegment? && b.LineSegment?)
  }

  /** Two shapes report the same type name exactly when they are of the same variant. */
  lemma TypeNameIdentifies(s1: Shape, s2: Shape)
    ensures TypeName(s1) == TypeName(s2) <==> SameVariant(s1.curve, s2.curve)
  {
  }

  /** `std::clamp(t, lo, hi)`. */
  function Clamp(t: real, lo: real, hi: real): (r: real)
    requires lo <= hi
    ensures lo <= r <= hi
    ensures lo <= t <= hi ==> r == t
    ensures t <= lo ==> r == lo
    ensures hi <= t ==> r == hi
  {
    if t < lo then lo else if hi < t then hi else t
  }

  /** `GetPoint(t)`: the position on the curve at parameter `t`. */
  function GetPoint(m: MathLib, s: Shape, t: real): (p: Vec3)
    ensures s.curve.Point? ==> p == s.origin
    ensures s.curve.Circle? || s.curve.Ellipse? ==> p.z == s.origin.z
    ensures s.curve.Helix? ==> p.z == s.origin.z + s.curve.step * t
    ensures s.curve.Line? && t == 0.0 ==> p == s.origin
    ensures s.curve.LineSegment? && t <= 0.0 ==> p == s.origin
  {
    match s.curve
    case Circle(r) => Add(Vec3(r * m.cos(t), r * m.sin(t), 0.0), s.origin)
    case Ellipse(rx, ry) => Add(Vec3(rx * m.cos(t), ry * m.sin(t), 0.0), s.origin)
    case Helix(r, step) => Add(Vec3(r * m.cos(t), r * m.sin(t), step * t), s.origin)
    case Point => s.origin
    case Line(d) => Add(Scale(d, t), s.origin)
    case LineSegment(d, len) => Add(Scale(Scale(d, len), Clamp(t, 0.0, 1.0)), s.origin)
  }

  /** `GetDerivative(t)`: the unnormalised tangent at parameter `t`. */
  function GetDerivative(m: MathLib, s: Shape, t: real): (d: Vec3)
    ensures s.curve.Point? ==> d == Zero
    ensures s.curve.Circle? || s.curve.Ellipse? ==> d.z == 0.0
    ensures s.curve.Helix? ==> d.z == s.curve.step
    ensures s.curve.Line? ==> d == s.curve.direction
    ensures s.curve.LineSegment? ==> LengthSq(d) == s.curve.length * s.curve.length * LengthSq(s.curve.direction)
  {
    match s.curve
    case Circle(r) => Vec3(-r * m.sin(t), r * m.cos(t), 0.0)
    case Ellipse(rx, ry) => Vec3(-rx * m.sin(t), ry * m.cos(t), 0.0)
    case Helix(r, step) => Vec3(-r * m.sin(t), r * m.cos(t), step)
    case Point => Zero
    case Line(d) => d
    case LineSegment(d, len) => Scale(d, len)
  }

  /**
   * A segment long enough to keep its normalised direction starts at
   * `start`, ends at `end`, stays there outside [0, 1], and its derivative
   * is the chord `end - start` for every `t`.
   */
  lemma LineSegmentEnds(name: string, id: u64, start: Vec3, end: Vec3, cfg: Config, m: MathLib, t: real)
    requires SqrtLaw(m)
    requires NewLineSegment(name, id, start, end, cfg, m).Ok?
    requires DefaultEpsilon <= Length(m, Sub(end, start))
    ensures var s := NewLineSegment(name, id, start, end, cfg, m).value;
      && (t <= 0.0 ==> GetPoint(m, s, t) == start)
      && (1.0 <= t ==> GetPoint(m, s, t) == end)
      && GetDerivative(m, s, t) == Sub(end, start)
  {
  }

  /** A segment long enough to keep its direction has its midpoint halfway along the chord. */
  lemma LineSegmentMidpoint(name: string, id: u64, start: Vec3, end: Vec3, cfg: Config, m: MathLib)
    requires SqrtLaw(m)
    requires NewLineSegment(name, id, start, end, cfg, m).Ok?
    requires DefaultEpsilon <= Length(m, Sub(end, start))
    ensures GetPoint(m, NewLineSegment(name, id, start, end, cfg, m).value, 0.5) == Add(Scale(Sub(end, start), 0.5), start)
  {
  }

  /**
   * A segment accepted with a chord shorter than the default tolerance keeps
   * a zero direction: it stays at `start` for every `t` and its derivative
   * is zero.
   */
  lemma LineSegmentDegenerate(name: string, id: u64, start: Vec3, end: Vec3, cfg: Config, m: MathLib, t: real)
    requires NewLineSegment(name, id, start, end, cfg, m).Ok?
    requires Length(m, Sub(end, start)) < DefaultEpsilon
    ensures var s := NewLineSegment(name, id, start, end, cfg, m).value;
      GetPoint(m, s, t) == start && GetDerivative(m, s, t) == Zero
  {
    var s := NewLineSegment(name, id, start, end, cfg, m).value;
    ZeroDirectionSegment(m, s, t);
  }

  /** A segment with a zero direction is constant at its origin. */
  lemma ZeroDirectionSegment(m: MathLib, s: Shape, t: real)
    requires s.curve.LineSegment? && s.curve.direction == Zero
    ensures GetPoint(m, s, t) == s.origin && GetDerivative(m, s, t) == Zero
  {
    SegmentPointFormula(m, s, t);
    SegmentDerivativeFormula(m, s, t);
    ScaleZero(s.curve.length);
    ScaleZero(Clamp(t, 0.0, 1.0));
  }

  /** The derivative of a segment is its chord. */
  lemma SegmentDerivativeFormula(m: MathLib, s: Shape, t: real)
    requires s.curve.LineSegment?
    ensures GetDerivative(m, s, t) == Scale(s.curve.direction, s.curve.length)
  {
  }

  /** The point of a segment is its chord scaled by the clamped parameter, from the origin. */
  lemma SegmentPointFormula(m: MathLib, s: Shape, t: real)
    requires s.curve.LineSegment?
    ensures GetPoint(m, s, t) == Add(Scale(Scale(s.curve.direction, s.curve.length), Clamp(t, 0.0, 1.0)), s.origin)
  {
  }

  /**
   * Along a segment the squared distance from the start does not decrease
   * as `t` grows.
   */
  lemma SegmentDistanceMonotone(m: MathLib, s: Shape, t1: real, t2: real)
    requires s.curve.LineSegment?
    requires t1 <= t2
    ensures LengthSq(Sub(GetPoint(m, s, t1), s.origin)) <= LengthSq(Sub(GetPoint(m, s, t2), s.origin))
  {
    var chord := Scale(s.curve.direction, s.curve.length);
    var c1, c2 := Clamp(t1, 0.0, 1.0), Clamp(t2, 0.0, 1.0);
    assert c1 <= c2;
    assert Sub(GetPoint(m, s, t1), s.origin) == Scale(chord, c1) by {
      AddSubInverse(Scale(chord, c1), s.origin);
    }
    assert Sub(GetPoint(m, s, t2), s.origin) == Scale(chord, c2) by {
      AddSubInverse(Scale(chord, c2), s.origin);
    }
    ScaleMonotone(chord, c1, c2);
  }

  /** Scaling by a larger non-negative factor gives a longer vector. */
  lemma ScaleMonotone(v: Vec3, c1: real, c2: real)
    requires 0.0 <= c1 <= c2
    ensures LengthSq(Scale(v, c1)) <= LengthSq(Scale(v, c2))
  {
    var k, p1, p2 := LengthSq(v), c1 * c1, c2 * c2;
    if c1 < c2 {
      SquareMonotone(c1, c2);
    }
    calc {
      LengthSq(Scale(v, c1));
      p1 * k;
      <= { MulNonNegative(p1, p2, k); }
      p2 * k;
      LengthSq(Scale(v, c2));
    }
  }

  lemma MulNonNegative(a: real, b: real, k: real)
    requires a <= b && 0.0 <= k
    ensures a * k <= b * k
  {
  }
}

=== FILE: geometry_builder.dfy ===
/**
 * `GeometryBuilder`: turns raw, possibly negative or near-zero radius and
 * step values into exactly one shape, taking absolute values of negative
 * radii and downgrading to a Point, Line, Line Segment or Circle when a
 * parameter is below the configured epsilon. Each correction is reported
 * as a warning; the warnings are returned instead of being logged.
 */
module GeometryBuilder {
  import opened Results
  import opened Vectors
  import opened Geometry

  /** The shape a builder call yields (or the exception it let through) and the warnings it logged, in order. */
  datatype Built = Built(shape: Result<Shape>, warnings: seq<string>)

  const RadiusNegative := "radius < 0"
  const RadiusToPoint := "|radius| < epsilon. Converting to Point"
  const RadiusToSegment := "|radius| < epsilon. Converting to Line Segment"
  const RadiusNearZero := "|radius| < epsilon"
  const StepToPoint := "|step| < epsilon. Converting to Point"
  const ToLine := "Converting to Line"
  const StepToEllipse := "|step| < epsilon. Converting to Ellipse"

  /** The text `LogWarning("%s: <message>", label)` formats: the shape's label comes first. */
  function Warning(name: string, message: string): (w: string)
    ensures |name| < |w| && w[..|name|] == name && w[|name|..] == ": " + message
  {
    name + ": " + message
  }

  /** `CreateCircle`: a Circle of radius `|radius|`, or a Point when that is below epsilon. */
  function CreateCircle(cfg: Config, name: string, id: u64, origin: Vec3, radius: real): (b: Built)
    ensures b.shape.Ok? && WellFormed(cfg, b.shape.value)
    ensures b.shape.value.name == name && b.shape.value.id == id && b.shape.value.origin == origin
    ensures Abs(radius) < cfg.epsilon ==> b.shape.value.curve == Point
    ensures cfg.epsilon <= Abs(radius) ==> b.shape.value.curve == Circle(Abs(radius))
    ensures |b.warnings| == (if radius < 0.0 then 1 else 0) + (if Abs(radius) < cfg.epsilon then 1 else 0)
    ensures radius < 0.0 ==> b.warnings[0] == Warning(name, RadiusNegative)
    ensures Abs(radius) < cfg.epsilon ==> b.warnings[|b.warnings| - 1] == Warning(name, RadiusToPoint)
    ensures CheckRadius(radius, cfg).Pass? ==> b == Built(Ok(Shape(name, id, origin, Circle(radius))), [])
  {
    var w0 := if radius < 0.0 then [Warning(name, RadiusNegative)] else [];
    var r := if radius < 0.0 then Abs(radius) else radius;
    if r < cfg.epsilon then
      Built(Ok(Shape(name, id, origin, Point)), w0 + [Warning(name, RadiusToPoint)])
    else
      Built(NewCircle(name, id, origin, r, cfg), w0)
  }

  /**
   * `CreateEllipse`: when either axis is negative both take their absolute
   * value, with a single warning. Two near-zero axes give a Point, one
   * gives a Line Segment along the other axis, none gives an Ellipse.
   */
  function CreateEllipse(cfg: Config, m: MathLib, name: string, id: u64, origin: Vec3, radiusX: real, radiusY: real): (b: Built)
    ensures b.shape.Ok? ==> b.shape.value.name == name && b.shape.value.id == id
    ensures SqrtLaw(m) && b.shape.Ok? ==> WellFormed(cfg, b.shape.value)
    ensures Abs(radiusX) < cfg.epsilon && Abs(radiusY) < cfg.epsilon ==>
      b.shape == Ok(Shape(name, id, origin, Point))
    ensures cfg.epsilon <= Abs(radiusX) && cfg.epsilon <= Abs(radiusY) ==>
      b.shape == Ok(Shape(name, id, origin, Ellipse(Abs(radiusX), Abs(radiusY))))
    ensures (Abs(radiusX) < cfg.epsilon) != (Abs(radiusY) < cfg.epsilon) ==>
      b.shape.Ok? ==> b.shape.value.curve.LineSegment?
    ensures |b.warnings| == (if radiusX < 0.0 || radiusY < 0.0 then 1 else 0)
                          + (if Abs(radiusX) < cfg.epsilon || Abs(radiusY) < cfg.epsilon then 1 else 0)
    ensures radiusX < 0.0 || radiusY < 0.0 ==> b.warnings[0] == Warning(name, RadiusNegative)
    ensures Abs(radiusX) < cfg.epsilon && Abs(radiusY) < cfg.epsilon ==>
      b.warnings[|b.warnings| - 1] == Warning(name, RadiusToPoint)
    ensures (Abs(radiusX) < cfg.epsilon) != (Abs(radiusY) < cfg.epsilon) ==>
      b.warnings[|b.warnings| - 1] == Warning(name, RadiusToSegment)
    ensures CheckRadius(radiusX, cfg).Pass? && CheckRadius(radiusY, cfg).Pass? ==>
      b == Built(Ok(Shape(name, id, origin, Ellipse(radiusX, radiusY))), [])
  {
    var negative := radiusX < 0.0 || radiusY < 0.0;
    var w0 := if negative then [Warning(name, RadiusNegative)] else [];
    var rx := if negative then Abs(radiusX) else radiusX;
    var ry := if negative then Abs(radiusY) else radiusY;
    var xZero := rx < cfg.epsilon;
    var yZero := ry < cfg.epsilon;
    if xZero && yZero then
      Built(Ok(Shape(name, id, origin, Point)), w0 + [Warning(name, RadiusToPoint)])
    else if xZero || yZero then
      var direction := Vec3(if xZero then 0.0 else rx, if yZero then 0.0 else ry, 0.0);
      var start := Sub(origin, direction);
      var end := Add(origin, direction);
      Built(NewLineSegment(name, id, start, end, cfg, m), w0 + [Warning(name, RadiusToSegment)])
    else
      Built(NewEllipse(name, id, origin, rx, ry, cfg), w0)
  }

  /** The half-axis an ellipse collapses to: the near-zero axis is exactly 0. */
  function HalfAxis(cfg: Config, radiusX: real, radiusY: real): (d: Vec3)
    ensures d.z == 0.0 && 0.0 <= d.x && 0.0 <= d.y
    ensures Abs(radiusX) < cfg.epsilon ==> d.x == 0.0
    ensures Abs(radiusY) < cfg.epsilon ==> d.y == 0.0
    ensures cfg.epsilon <= Abs(radiusX) ==> d.x == Abs(radiusX)
    ensures cfg.epsilon <= Abs(radiusY) ==> d.y == Abs(radiusY)
  {
    Vec3(if Abs(radiusX) < cfg.epsilon then 0.0 else Abs(radiusX),
         if Abs(radiusY) < cfg.epsilon then 0.0 else Abs(radiusY), 0.0)
  }

  /**
   * An ellipse with exactly one near-zero axis becomes a Line Segment from
   * `origin - d` to `origin + d`, where `d` is the surviving half-axis; it
   * is stored with `origin - d` as its origin, its length is twice the
   * surviving radius and at least epsilon, and when that length is not
   * below the default tolerance its midpoint is the ellipse's centre.
   */
  lemma EllipseToSegment(cfg: Config, m: MathLib, name: string, id: u64, origin: Vec3, radiusX: real, radiusY: real)
    requires SqrtLaw(m)
    requires (Abs(radiusX) < cfg.epsilon) != (Abs(radiusY) < cfg.epsilon)
    ensures var b := CreateEllipse(cfg, m, name, id, origin, radiusX, radiusY);
      var d := HalfAxis(cfg, radiusX, radiusY);
      && b.shape.Ok?
      && b.shape.value.origin == Sub(origin, d)
      && b.shape.value.curve.LineSegment?
      && b.shape.value.curve.length == 2.0 * (d.x + d.y)
      && cfg.epsilon <= b.shape.value.curve.length
      && (DefaultEpsilon <= b.shape.value.curve.length ==>
            && GetPoint(m, b.shape.value, 0.0) == Sub(origin, d)
            && GetPoint(m, b.shape.value, 1.0) == Add(origin, d)
            && GetPoint(m, b.shape.value, 0.5) == origin)
  {
    var d := HalfAxis(cfg, radiusX, radiusY);
    assert CreateEllipse(cfg, m, name, id, origin, radiusX, radiusY).shape
        == NewLineSegment(name, id, Sub(origin, d), Add(origin, d), cfg, m);
    SegmentAcrossCentre(cfg, m, name, id, origin, d);
  }

  /**
   * The segment from `centre - d` to `centre + d` along one coordinate
   * axis has length `2 * |d|`, and its midpoint is the centre.
   */
  lemma SegmentAcrossCentre(cfg: Config, m: MathLib, name: string, id: u64, centre: Vec3, d: Vec3)
    requires SqrtLaw(m)
    requires d.z == 0.0 && 0.0 <= d.x && 0.0 <= d.y && (d.x == 0.0 || d.y == 0.0)
    ensures var seg := NewLineSegment(name, id, Sub(centre, d), Add(centre, d), cfg, m);
      && (seg.Ok? <==> cfg.epsilon <= 2.0 * (d.x + d.y))
      && (seg.Ok? ==> seg.value.curve.length == 2.0 * (d.x + d.y))
      && (seg.Ok? && DefaultEpsilon <= seg.value.curve.length ==>
            && GetPoint(m, seg.value, 0.0) == Sub(centre, d)
            && GetPoint(m, seg.value, 1.0) == Add(centre, d)
            && GetPoint(m, seg.value, 0.5) == centre)
  {
    var start, end := Sub(centre, d), Add(centre, d);
    var len := 2.0 * (d.x + d.y);
    AxisChordLength(m, centre, d);
    var seg := NewLineSegment(name, id, start, end, cfg, m);
    if seg.Ok? && DefaultEpsilon <= len {
      LineSegmentEnds(name, id, start, end, cfg, m, 0.0);
      LineSegmentEnds(name, id, start, end, cfg, m, 1.0);
      LineSegmentMidpoint(name, id, start, end, cfg, m);
      HalfChordFromStart(centre, d);
    }
  }

  lemma HalfChordFromStart(centre: Vec3, d: Vec3)
    ensures Add(Scale(Sub(Add(centre, d), Sub(centre, d)), 0.5), Sub(centre, d)) == centre
  {
  }

  /** The chord from `centre - d` to `centre + d` along one axis has length `2 * |d|`. */
  lemma AxisChordLength(m: MathLib, centre: Vec3, d: Vec3)
    requires SqrtLaw(m)
    requires d.z == 0.0 && 0.0 <= d.x && 0.0 <= d.y && (d.x == 0.0 || d.y == 0.0)
    ensures Length(m, Sub(Add(centre, d), Sub(centre, d))) == 2.0 * (d.x + d.y)
  {
    var diff := Sub(Add(centre, d), Sub(centre, d));
    assert diff == Vec3(2.0 * d.x, 2.0 * d.y, 0.0);
    var len := 2.0 * (d.x + d.y);
    assert LengthSq(diff) == len * len;
    LengthOfSquare(m, diff, len);
  }

  /**
   * The shared body of `CreateHelix` and `CreateHelixFixed`; they differ
   * only in the length of the z-axis direction handed to the Line
   * constructor.
   */
  function BuildHelix(cfg: Config, m: MathLib, name: string, id: u64, origin: Vec3, radius: real, step: real, axisLength: real): (b: Built)
    ensures b.shape.Ok? ==> b.shape.value.name == name && b.shape.value.id == id && b.shape.value.origin == origin
    ensures SqrtLaw(m) && b.shape.Ok? ==> WellFormed(cfg, b.shape.value)
  {
    var w0 := if radius < 0.0 then [Warning(name, RadiusNegative)] else [];
    var r := if radius < 0.0 then Abs(radius) else radius;
    var radiusZero := r < cfg.epsilon;
    var stepZero := Abs(step) < cfg.epsilon;
    if radiusZero then
      var w1 := w0 + [Warning(name, RadiusNearZero)];
      if stepZero then
        Built(Ok(Shape(name, id, origin, Point)), w1 + [Warning(name, StepToPoint)])
      else
        var direction := if step > 0.0 then Vec3(0.0, 0.0, axisLength) else Vec3(0.0, 0.0, -axisLength);
        Built(NewLine(name, id, origin, direction, cfg, m), w1 + [Warning(name, ToLine)])
    else if stepZero then
      Built(NewCircle(name, id, origin, r, cfg), w0 + [Warning(name, StepToEllipse)])
    else
      Built(NewHelix(name, id, origin, r, step, cfg), w0)
  }

  /**
   * `CreateHelix` as written: a Point, a Line along the z axis, a Circle
   * or a Helix whose step keeps its sign. The step-near-zero branch warns
   * that it converts to an Ellipse but builds a Circle.
   */
  function CreateHelix(cfg: Config, m: MathLib, name: string, id: u64, origin: Vec3, radius: real, step: real): (b: Built)
    ensures |b.warnings| == (if radius < 0.0 then 1 else 0)
                          + (if Abs(radius) < cfg.epsilon then 2 else if Abs(step) < cfg.epsilon then 1 else 0)
    ensures b.shape.Ok? ==> b.shape.value.name == name && b.shape.value.id == id && b.shape.value.origin == origin
    ensures SqrtLaw(m) && b.shape.Ok? ==> WellFormed(cfg, b.shape.value)
    ensures Abs(radius) < cfg.epsilon && Abs(step) < cfg.epsilon ==>
      b.shape == Ok(Shape(name, id, origin, Point)) && b.warnings[|b.warnings| - 1] == Warning(name, StepToPoint)
    ensures Abs(radius) < cfg.epsilon ==> b.warnings[|b.warnings| - 2] == Warning(name, RadiusNearZero)
    ensures Abs(radius) < cfg.epsilon <= Abs(step) ==> b.warnings[|b.warnings| - 1] == Warning(name, ToLine)
    ensures cfg.epsilon <= Abs(radius) && Abs(step) < cfg.epsilon ==>
      b.shape == Ok(Shape(name, id, origin, Circle(Abs(radius)))) && b.warnings[|b.warnings| - 1] == Warning(name, StepToEllipse)
    ensures cfg.epsilon <= Abs(radius) && cfg.epsilon <= Abs(step) ==>
      b.shape == Ok(Shape(name, id, origin, Helix(Abs(radius), step)))
    ensures radius < 0.0 ==> b.warnings[0] == Warning(name, RadiusNegative)
    ensures NewHelix(name, id, origin, radius, step, cfg).Ok? ==>
      b == Built(Ok(Shape(name, id, origin, Helix(radius, step))), [])
  {
    BuildHelix(cfg, m, name, id, origin, radius, step, 1.0)
  }

  /**
   * With a near-zero radius and a step that is not, the helix becomes a
   * Line through the origin along `+z` or `-z` by the sign of the step;
   * the Line constructor accepts the axis direction exactly when its
   * length `axisLength` is at least epsilon.
   */
  lemma HelixAxisLine(cfg: Config, m: MathLib, name: string, id: u64, origin: Vec3, radius: real, step: real, axisLength: real)
    requires SqrtLaw(m)
    requires Abs(radius) < cfg.epsilon <= Abs(step)
    requires 1.0 <= axisLength
    ensures var b := BuildHelix(cfg, m, name, id, origin, radius, step, axisLength);
      && (b.shape.Ok? <==> cfg.epsilon <= axisLength)
      && (b.shape.Ok? ==> b.shape.value == Shape(name, id, origin, Line(Vec3(0.0, 0.0, if 0.0 < step then 1.0 else -1.0))))
      && (!b.shape.Ok? ==> b.shape.error == "Direction length < epsilon")
  {
    var direction := if step > 0.0 then Vec3(0.0, 0.0, axisLength) else Vec3(0.0, 0.0, -axisLength);
    assert LengthSq(direction) == axisLength * axisLength;
    LengthOfSquare(m, direction, axisLength);
    assert Normalized(m, direction, DefaultEpsilon) == Div(direction, axisLength);
  }

  /** `CreateHelix` on the Line path: accepted exactly when epsilon is at most 1. */
  lemma CreateHelixLine(cfg: Config, m: MathLib, name: string, id: u64, origin: Vec3, radius: real, step: real)
    requires SqrtLaw(m)
    requires Abs(radius) < cfg.epsilon <= Abs(step)
    ensures var b := CreateHelix(cfg, m, name, id, origin, radius, step);
      && (b.shape.Ok? <==> cfg.epsilon <= 1.0)
      && (b.shape.Ok? ==> b.shape.value == Shape(name, id, origin, Line(Vec3(0.0, 0.0, if 0.0 < step then 1.0 else -1.0))))
      && (!b.shape.Ok? ==> b.shape.error == "Direction length < epsilon")
  {
    HelixAxisLine(cfg, m, name, id, origin, radius, step, 1.0);
  }

  /**
   * With a tolerance above 1 the unit axis direction is rejected by the
   * Line constructor, so `CreateHelix` lets `invalid_argument` escape.
   */
  lemma HelixLineRejectedForWideEpsilon(m: MathLib)
    requires SqrtLaw(m)
    ensures CreateHelix(Config(5.0), m, "h", 1, Zero, 0.0, 10.0).shape == Err("Direction length < epsilon")
  {
  }

  /**
   * `CreateHelix` with the z-axis direction scaled to at least epsilon, so
   * that the Line constructor always accepts it. It differs from
   * `CreateHelix` only on the Line path, and logs the same warnings.
   */
  function CreateHelixFixed(cfg: Config, m: MathLib, name: string, id: u64, origin: Vec3, radius: real, step: real): (b: Built)
    ensures b.warnings == CreateHelix(cfg, m, name, id, origin, radius, step).warnings
    ensures !(Abs(radius) < cfg.epsilon <= Abs(step)) ==> b == CreateHelix(cfg, m, name, id, origin, radius, step)
  {
    BuildHelix(cfg, m, name, id, origin, radius, step, if 1.0 < cfg.epsilon then cfg.epsilon else 1.0)
  }

  /**
   * The corrected helix builder never throws, yields a well-formed shape,
   * and agrees with `CreateHelix` wherever that one does not throw.
   */
  lemma CreateHelixFixedNeverThrows(cfg: Config, m: MathLib, name: string, id: u64, origin: Vec3, radius: real, step: real)
    requires SqrtLaw(m)
    ensures var b := CreateHelixFixed(cfg, m, name, id, origin, radius, step);
      && b.shape.Ok?
      && WellFormed(cfg, b.shape.value)
      && (CreateHelix(cfg, m, name, id, origin, radius, step).shape.Ok? ==> b == CreateHelix(cfg, m, name, id, origin, radius, step))
  {
    if Abs(radius) < cfg.epsilon <= Abs(step) {
      HelixAxisLine(cfg, m, name, id, origin, radius, step, if 1.0 < cfg.epsilon then cfg.epsilon else 1.0);
      CreateHelixLine(cfg, m, name, id, origin, radius, step);
    }
  }

  /**
   * The builder's promise: for every input, `CreateCircle` and
   * `CreateEllipse` hand their constructors parameters that pass the
   * constructor's check, so no `invalid_argument` escapes, and the shape
   * is well formed. `CreateHelix` keeps the promise exactly unless the
   * radius is near zero, the step is not, and epsilon exceeds 1;
   * `CreateHelixFixed` keeps it always.
   */
  lemma BuilderNeverThrows(cfg: Config, m: MathLib, name: string, id: u64, origin: Vec3, a: real, b: real)
    requires SqrtLaw(m)
    ensures CreateCircle(cfg, name, id, origin, a).shape.Ok?
    ensures var e := CreateEllipse(cfg, m, name, id, origin, a, b);
      e.shape.Ok? && WellFormed(cfg, e.shape.value)
    ensures var h := CreateHelix(cfg, m, name, id, origin, a, b);
      && (h.shape.Ok? <==> !(Abs(a) < cfg.epsilon <= Abs(b) && 1.0 < cfg.epsilon))
      && (h.shape.Ok? ==> WellFormed(cfg, h.shape.value))
    ensures var f := CreateHelixFixed(cfg, m, name, id, origin, a, b);
      f.shape.Ok? && WellFormed(cfg, f.shape.value)
  {
    CreateHelixFixedNeverThrows(cfg, m, name, id, origin, a, b);
    if (Abs(a) < cfg.epsilon) != (Abs(b) < cfg.epsilon) {
      EllipseToSegment(cfg, m, name, id, origin, a, b);
    }
    if Abs(a) < cfg.epsilon <= Abs(b) {
      CreateHelixLine(cfg, m, name, id, origin, a, b);
    }
  }
}

=== FILE: results.dfy ===
/** Outcomes of the operations that can throw `std::invalid_argument`. */
module Results {

  /** A constructor either yields a value or throws with a message. */
  datatype Result<+T> = Ok(value: T) | Err(error: string)

  /** A check that either returns normally or throws with a message. */
  datatype Check = Pass | Fail(error: string)
}

=== FILE: vectors.dfy ===
/**
 * The `vec3` value type: a triple of reals with componentwise arithmetic,
 * Euclidean length and epsilon-guarded normalisation.
 *
 * The square root, sine and cosine of the C math library are not modelled:
 * they are the fields of a `MathLib` value that every caller passes in, and
 * the only fact the model relies on is `SqrtLaw`, stated as a hypothesis
 * wherever it is needed.
 */
module Vectors {

  datatype Vec3 = Vec3(x: real, y: real, z: real)

  const Zero: Vec3 := Vec3(0.0, 0.0, 0.0)

  /** `std::sqrt`, `sin` and `cos`, left uninterpreted. */
  datatype MathLib = MathLib(sqrt: real -> real, sin: real -> real, cos: real -> real)

  /** The one law of `sqrt` the model uses: it yields the non-negative root. */
  ghost predicate SqrtLaw(m: MathLib) {
    forall s: real {:trigger m.sqrt(s)} :: 0.0 <= s ==> 0.0 <= m.sqrt(s) && m.sqrt(s) * m.sqrt(s) == s
  }

  /** `std::abs` on a double. */
  function Abs(a: real): (r: real)
    ensures 0.0 <= r && (r == a || r == -a)
    ensures a < 0.0 ==> r == -a
  {
    if a < 0.0 then -a else a
  }

  /** `operator+`: the zero vector is its identity. */
  function Add(a: Vec3, b: Vec3): (r: Vec3)
    ensures a == Zero ==> r == b
    ensures b == Zero ==> r == a
  {
    Vec3(a.x + b.x, a.y + b.y, a.z + b.z)
  }

  /** `operator-`: undone by `Add`. */
  function Sub(a: Vec3, b: Vec3): (r: Vec3)
    ensures Add(r, b) == a
    ensures r == Zero <==> a == b
  {
    Vec3(a.x - b.x, a.y - b.y, a.z - b.z)
  }

  /** Adding then subtracting the same vector gives the original back. */
  lemma AddSubInverse(a: Vec3, d: Vec3)
    ensures Sub(Add(a, d), d) == a
  {
  }

  /** `operator*` by a scalar: scales the squared length by `k * k`. */
  function Scale(a: Vec3, k: real): (r: Vec3)
    ensures LengthSq(r) == k * k * LengthSq(a)
  {
    Vec3(a.x * k, a.y * k, a.z * k)
  }

  /** Scaling the zero vector gives the zero vector. */
  lemma ScaleZero(k: real)
    ensures Scale(Zero, k) == Zero
  {
  }

  /** `operator/` by a scalar: undone by `Scale`. */
  function Div(a: Vec3, k: real): (r: Vec3)
    requires k != 0.0
    ensures Scale(r, k) == a
    ensures LengthSq(r) * (k * k) == LengthSq(a)
  {
    var r := Vec3(a.x / k, a.y / k, a.z / k);
    assert Scale(r, k) == a;
    r
  }

  /** The squared Euclidean length `x*x + y*y + z*z`. */
  function LengthSq(a: Vec3): (r: real)
    ensures 0.0 <= r
    ensures r == 0.0 <==> a == Zero
  {
    var r := a.x * a.x + a.y * a.y + a.z * a.z;
    SquareNonNegative(a.x);
    SquareNonNegative(a.y);
    SquareNonNegative(a.z);
    r
  }

  /** `Length()`: the square root of the squared length. */
  function Length(m: MathLib, a: Vec3): (r: real)
    ensures SqrtLaw(m) ==> 0.0 <= r && r * r == LengthSq(a)
  {
    m.sqrt(LengthSq(a))
  }

  /**
   * `Normalized(epsilon)`: the zero vector when the length is below
   * `epsilon`, otherwise the vector divided by its length, which has
   * length 1 and points the same way.
   */
  function Normalized(m: MathLib, v: Vec3, eps: real): (r: Vec3)
    requires 0.0 < eps
    ensures Length(m, v) < eps ==> r == Zero
    ensures SqrtLaw(m) && eps <= Length(m, v) ==> LengthSq(r) == 1.0 && Scale(r, Length(m, v)) == v
  {
    var len := Length(m, v);
    if len < eps then Zero
    else
      var r := Div(v, len);
      UnitAfterDivision(m, v, r, len);
      r
  }

  /** The non-negative root of a square is the number itself. */
  lemma SqrtOfSquare(m: MathLib, a: real)
    requires SqrtLaw(m) && 0.0 <= a
    ensures m.sqrt(a * a) == a
  {
    var s := m.sqrt(a * a);
    assert 0.0 <= s && s * s == a * a;
    if s < a {
      SquareMonotone(s, a);
    } else if a < s {
      SquareMonotone(a, s);
    }
  }

  /** A vector whose squared length is `a * a` has length `a`. */
  lemma LengthOfSquare(m: MathLib, v: Vec3, a: real)
    requires SqrtLaw(m) && 0.0 <= a && LengthSq(v) == a * a
    ensures Length(m, v) == a
  {
    SqrtOfSquare(m, a);
  }

  /** Comparing a length with a positive bound is comparing the squares. */
  lemma LengthBelow(m: MathLib, v: Vec3, eps: real)
    ensures SqrtLaw(m) && 0.0 < eps ==> (Length(m, v) < eps <==> LengthSq(v) < eps * eps)
  {
    if SqrtLaw(m) && 0.0 < eps {
      var len := Length(m, v);
      assert 0.0 <= len && len * len == LengthSq(v);
      if len < eps {
        SquareMonotone(len, eps);
      } else if eps < len {
        SquareMonotone(eps, len);
      }
    }
  }

  // Facts of real arithmetic that the solver does not find unaided.

  lemma SquareMonotone(a: real, b: real)
    requires 0.0 <= a < b
    ensures a * a < b * b
  {
    calc {
      a * a;
      <= a * b;
      < b * b;
    }
  }

  lemma SquareNonNegative(a: real)
    ensures 0.0 <= a * a
    ensures a * a == 0.0 <==> a == 0.0
  {
    if a < 0.0 {
      SquareMonotone(0.0, -a);
    } else if 0.0 < a {
      SquareMonotone(0.0, a);
    }
  }

  /** Dividing `v` by its length leaves a vector of squared length 1. */
  lemma UnitAfterDivision(m: MathLib, v: Vec3, r: Vec3, len: real)
    requires len == Length(m, v) && len != 0.0 && r == Div(v, len)
    ensures SqrtLaw(m) ==> LengthSq(r) == 1.0
  {
    if SqrtLaw(m) {
      var n, q := LengthSq(r), len * len;
      assert n * q == LengthSq(v);
      assert LengthSq(v) == q;
      SquareNonNegative(len);
      calc {
        n;
        n * q / q;
        q / q;
        1.0;
      }
    }
  }
}
